=== FILE: README.md ===
# schedcat sequence helpers: `imerge` and `uniq`

A Dafny model of `schedcat/util/iter.py`, the sequence helpers that the EDF
demand-bound analysis uses to build its testing set. The testing set is the
sorted set of time points at which the demand of a task set has to be
checked.

- `PrioObj` (`prio.dfy`, module `Prio`) is a heap entry that carries its own
  "less than" relation. Its `<` applies the left entry's relation to the two
  stored values.
- `imerge(lt, *iters)` (`merge.dfy`, module `Merge`) is a k-way merge driven
  by a heap.
  - The heap holds one cursor per non-empty input. A cursor is the input's
    buffered head, the input's remaining elements, and the input's position
    in the argument list.
  - Each round pops a cursor with a minimal head, yields that head, and
    pushes the cursor back advanced by one element. If the input is
    exhausted, the cursor is dropped instead.
  - `Init` models the set-up and `PopAt` one round that pops a given entry.
  - A run of the loop is described by its schedule: the position of the
    entry popped in each round. `DrainBy` is the output of a run and
    `TraceBy` the heap states the loop condition tests.
  - `MinimalSchedule` singles out the runs whose every pop takes an entry no
    other head is strictly before. Under a strict weak order every run of
    `heappop` is one of them, whichever of several equal heads it takes.
    The merge properties are proved for all such runs.
  - `SelectMin`, `Scan` and `IMerge` are one concrete run, used to show
    that such runs exist.
- `uniq(seq)` (`uniq.dfy`, module `Dedup`) yields the first element, then
  every element that differs (by `!=`) from the last value yielded.
- `orders.dfy` (module `Orders`) defines the properties of `lt` that the
  merge relies on, and what "sorted" means under `lt`.
- `testing_set.dfy` (module `TestingSet`) composes the two:
  `uniq(imerge(lt, *points))`. It also proves the literal vectors of
  `tests/edf.py` from the general lemmas.

Inputs are finite sequences: a finite prefix of what a lazy input yields.
The comparison `lt` is a parameter. The merge lemmas state which of its
properties each one needs:

- `StrictWeakOrder`: irreflexive, transitive, and incomparability is
  transitive.
- `Connected`: distinct values are comparable, as for `<` on numbers.

## Model

| member | source | states |
|---|---|---|
| Prio.LessUsesLeftRelation | schedcat/util/iter.py:13-14 | `Prio.Less`, the entries' `<`, depends only on the left entry's relation and the two stored values. The right entry's relation plays no part. |
| Merge.BeforeIsLtOnHeads | schedcat/util/iter.py:13-19 | `Prio.Less` on the entries `imerge` builds is exactly the caller's `lt` applied to the two buffered heads. |
| Merge.InitFrom | schedcat/util/iter.py:20-25 | The set-up loop builds at most one cursor for each input it visits: no two cursors carry the same input, and each is tagged with the position of an input it visited. |
| Merge.InitFromPending | schedcat/util/iter.py:20-25 | After set-up, the cursors hold, for each input, exactly that input's elements (head first), and nothing for inputs outside the argument list. |
| Merge.Init | schedcat/util/iter.py:18-26 | The initial heap has at most one cursor per input, and only cursors of existing inputs. Each input's elements are held by its own cursor. Together the cursors hold the concatenation of the inputs. |
| Merge.SelectMin | schedcat/util/iter.py:28 | Under a strict weak order, no buffered head is strictly before the head of the chosen entry. |
| Merge.Pop | schedcat/util/iter.py:27-35 | Under a strict weak order, one round outputs an element no buffered head is strictly before. The heap does not grow, and exactly one element leaves it. |
| Merge.Advance | schedcat/util/iter.py:31-35 | The cursor pushed back holds exactly the input's elements after the one just output, and belongs to the same input. An exhausted input pushes nothing back. |
| Merge.PopAt | schedcat/util/iter.py:28-35 | Whichever entry is popped, the heap's contents lose exactly the output element as a multiset: nothing is lost or invented. |
| Merge.PopTakesFromOneInput | schedcat/util/iter.py:28-33 | A round takes the output element from the front of its own input's pending elements and leaves every other input's pending elements unchanged. |
| Merge.PopKeepsOnePerInput | schedcat/util/iter.py:28-35 | A round keeps at most one cursor per input, and only cursors of inputs that were already present. |
| Merge.PopKeepsSorted | schedcat/util/iter.py:31-33 | If every cursor's pending elements are sorted, they still are after the round. |
| Merge.PopMinimalIsBelowRest | schedcat/util/iter.py:28-33 | When the popped entry is minimal, the relation's incomparability is transitive and the cursors are sorted, nothing left in the heap is strictly before the element just output. |
| Merge.DrainBy | schedcat/util/iter.py:27-35 | A run outputs one element per round. |
| Merge.ScheduleLength | schedcat/util/iter.py:27-35 | Every run of the loop stops, after exactly as many rounds as the heap holds elements. |
| Merge.TraceBy | schedcat/util/iter.py:27-35 | The loop condition is tested once per round plus once more. The first test sees the initial heap, each later one the heap the previous round left, and the last one an empty heap. |
| Merge.IMergeIsMinimalRun | schedcat/util/iter.py:27-28 | Under a strict weak order there is a run whose every pop is minimal: the model's own scan. |
| Merge.IMergeTaggedBy | schedcat/util/iter.py:17-35 | Every run of `imerge` outputs exactly as many tagged elements as the inputs hold together. What those elements are is stated by `Merge.IMergeKeepsInputOrder`. |
| Merge.IMergeBy | schedcat/util/iter.py:17-35 | Every run of `imerge` outputs exactly as many elements as the inputs hold together. Order and contents are stated by `Merge.IMergeSorted` and `Merge.IMergePermutes`. |
| Merge.IMergeByIsTaggedValues | schedcat/util/iter.py:17-35 | For every run, the values `imerge` yields are the tagged output with the input tags dropped, so the facts stated about the tagged output carry over to the yielded values. |
| Merge.IMergeSorted | schedcat/util/iter.py:17-35 | If each input is sorted under a strict weak order, every run whose pops are minimal outputs a sorted sequence. |
| Merge.IMergePermutes | schedcat/util/iter.py:17-35 | For any relation and any run, the output is a permutation of the concatenated inputs. |
| Merge.IMergeKeepsInputOrder | schedcat/util/iter.py:17-35 | In any run, the output elements that came from input `i` are exactly input `i`, in its order. |
| Merge.IMergeOfEmptyInputs | schedcat/util/iter.py:20-27 | With no inputs, or only empty ones, the heap starts empty, the loop runs no round and nothing is output. |
| Merge.IMergeHeapBound | schedcat/util/iter.py:18-35 | In any run, each time the loop condition is tested, the heap has at most one cursor per input, so its size is at most the number of inputs. |
| Merge.IMergeIsSortedConcat | schedcat/util/iter.py:17-35 | If each input is sorted under a strict weak order and distinct values are comparable, every run with minimal pops outputs the unique sorted permutation of the concatenated inputs, so the order in which equal heads are popped does not matter. |
| Dedup.CollapseProperties | schedcat/util/iter.py:41-44 | About `Dedup.Collapse`, the loop: it yields a subsequence of what it reads and never yields the value it yielded just before. Every value it reads is the initial `last` or is yielded. |
| Dedup.Uniq | schedcat/util/iter.py:37-44 | Fails exactly on empty input. Otherwise it yields the first element first, has no two equal neighbours, is a subsequence of the input, and contains the same values as the input. |
| Dedup.YieldedSkipsLeadRun | schedcat/util/iter.py:41-44 | uniq yields the first value, then what it would yield for the input after the leading run of equal values. |
| Dedup.UniqRunLengthRoundTrip | schedcat/util/iter.py:37-44 | Repeating each yielded value by the length of its run gives the input back. Only repetitions are dropped. |
| Dedup.UniqOfExpand | schedcat/util/iter.py:37-44 | Conversely, any sequence without equal neighbours, expanded by any positive run lengths, is what uniq yields for the expansion, and the run lengths are recovered. |
| Dedup.UniqOfSortedIsStrictlyAscending | schedcat/util/iter.py:37-44 | On input sorted under a strict weak order whose incomparable values are equal, uniq yields a strictly ascending sequence. |
| TestingSet.DedupMergeIsStrictlyAscending | schedcat/util/iter.py:17-44 | If each input is sorted under a strict weak order and distinct values are comparable, then for every run of the merge with minimal pops, uniq of the merge succeeds when some input is non-empty. It is strictly ascending and holds exactly the values occurring in the inputs. |
| TestingSet.DedupMergeIsAscendingValues | schedcat/util/iter.py:17-44 | If each input is sorted under a strict weak order, distinct values are comparable and some input is non-empty, then for every run with minimal pops, uniq of the merge is the one strictly ascending sequence of the input values. |
| TestingSet.TestingSetOfTwoTasks | tests/edf.py:114-157 | For the test points 5000, 10000, 15000, 20000 and 2000, 7000, 12000, 17000, taken as complete inputs, every run with minimal pops gives the deduplicated merge 2000, 5000, 7000, 10000, 12000, 15000, 17000, 20000. |
| TestingSet.TestingSetDropsRepeat | tests/edf.py:132-136 | For the test points 10000, 10000, 20000 of one task, taken as a complete input, every run with minimal pops gives the deduplicated merge 10000, 20000: the repeat is dropped. |
| TestingSet.TestingSetVectorsOfScan | tests/edf.py:114-157 | Both vectors hold of the model's own merge, which pops a minimal entry in every round. So the runs the two lemmas above describe exist, and the vectors are not vacuous. |

## Left out

- Laziness and infinite inputs. The model runs imerge and uniq on finite inputs, taken as complete. It does not relate a prefix of the output on infinite inputs to prefixes of the inputs: merging truncated inputs need not give a prefix of the merge of the full streams.
- heapq's binary-heap layout (`heapify`, `heappop`, `heappush`). The heap is a sequence of cursors, and a run is given by the positions it pops. The order properties are proved for every run whose pops are minimal. Permutation, per-input order and the heap bound are proved for every run. Which of several equal heads `heappop` takes is not modelled; `Merge.IMergeIsSortedConcat` shows it does not affect the output when distinct values are comparable.
- Merge.SelectMin: its minimality is stated only under a strict weak order. For a relation that is not one, `heappop` need not return an entry that no other head is before. Its sift steps compare entries only along one path of the tree. For example, take `lt(a, b)` true only for a = 1 and b = 2, and the inputs [0], [1], [2], [3]. Following heapq's sift rules by hand, `heapify` arranges the heads as 2, 3, 0, 1, and the first pop returns 2 while 1 is still in the heap. The model does not describe which entry `heappop` returns for such relations, and neither does `SelectMin`.
- Merge.Pop: its minimality is stated only under a strict weak order, for the same reason.
- Dedup.CollapseProperties: it states only that every value read is the initial `last` or is yielded. Which values are dropped is stated exactly by `Dedup.YieldedSkipsLeadRun` and `Dedup.UniqRunLengthRoundTrip`.
- Python's `!=` in `uniq`. It is modelled as Dafny's equality on values. A Python class may define `__ne__` other than as the negation of `==`, and a float NaN differs from itself; neither case is modelled.
- The relation `lt` is modelled as a total function without side effects. A Python `lt` that raises an exception, or changes state, is not modelled.
- `PrioObj.__str__` (iter.py:10-11): display only.
- The Python 2 and Python 3 behaviour of `uniq` on an empty input. A bare `next` on an empty input ends a Python 2 generator silently and raises `RuntimeError` from Python 3.7 on. The model returns `Err(EmptyInput)`, treating the call as a usage error.
- Exceptions other than end-of-input raised by an input, and inputs shared between several arguments (the same iterator passed twice).
- `PrioObj` entries carrying different relations. `imerge` builds every entry with the same relation; the model does the same.
- TestingSet.TestingSetOfTwoTasks: it does not model the full testing set of tests/edf.py:145-157. It merges the first four test points of each task as complete inputs. Its result is the first eight points of the full testing set only if each task's later points exceed 20000, which the model does not establish.
- `ffdbf.test_points` and `ffdbf.testing_set`, which produce the point sequences in `tests/edf.py`. ffdbf is not part of this model. The tests' point sequences appear as literal inputs, and fractional speedup factors are not modelled.

=== FILE: merge.dfy ===
/** `imerge` of schedcat/util/iter.py: a k-way merge of sequences under a
    caller-supplied strict order `lt`.

    The heap holds one cursor per input that still has elements: the cursor's
    `head` is the buffered element, `rest` is what the input has not yet
    produced, and `src` is the input's position in the argument list. A round
    pops the cursor whose head is minimal, outputs that head, and pushes the
    same cursor back advanced by one element if its input is not exhausted.
    Inputs are finite sequences (a finite prefix of a lazy stream). The heap
    is a sequence of cursors whose arrangement carries no meaning. A run of
    the loop is given by the position popped in each round, and the order
    properties below hold for every run whose pops are minimal, so which of
    two equal heads is popped first is left unspecified, as in the source. */
module Merge {
  import opened Orders
  import Prio

  datatype Cursor<T> = Cursor(head: T, rest: seq<T>, src: nat)

  /** An output element together with the input it was taken from. */
  datatype Tagged<T> = Tagged(val: T, src: nat)

  type Heap<T> = seq<Cursor<T>>

  /** What a cursor still has to give: its buffered head, then the rest. */
  function Pending<T>(c: Cursor<T>): seq<T> {
    [c.head] + c.rest
  }

  function Flatten<T>(h: Heap<T>): seq<T> {
    if |h| == 0 then [] else Pending(h[0]) + Flatten(h[1..])
  }

  function Concat<T>(ss: seq<seq<T>>): seq<T> {
    if |ss| == 0 then [] else ss[0] + Concat(ss[1..])
  }

  /** What the heap still holds from input `i`. */
  function PendingFrom<T>(h: Heap<T>, i: nat): seq<T> {
    if |h| == 0 then [] else (if h[0].src == i then Pending(h[0]) else []) + PendingFrom(h[1..], i)
  }

  function Values<T>(ts: seq<Tagged<T>>): seq<T> {
    if |ts| == 0 then [] else [ts[0].val] + Values(ts[1..])
  }

  /** The output elements that came from input `i`, in output order. */
  function Project<T>(ts: seq<Tagged<T>>, i: nat): seq<T> {
    if |ts| == 0 then [] else (if ts[0].src == i then [ts[0].val] else []) + Project(ts[1..], i)
  }

  predicate DistinctSrcs<T>(h: Heap<T>) {
    forall p, q :: 0 <= p < q < |h| ==> h[p].src != h[q].src
  }

  predicate SrcsBelow<T>(h: Heap<T>, k: nat) {
    forall p :: 0 <= p < |h| ==> h[p].src < k
  }

  /** At most one cursor per input, and only cursors of the `k` inputs. */
  predicate OnePerInput<T>(h: Heap<T>, k: nat) {
    DistinctSrcs(h) && SrcsBelow(h, k)
  }

  predicate AllSorted<T>(lt: (T, T) -> bool, h: Heap<T>) {
    forall p :: 0 <= p < |h| ==> Sorted(lt, Pending(h[p]))
  }

  // ---------------------------------------------------------------------------
  // Building the heap (iter.py:18-26)
  // ---------------------------------------------------------------------------

  /** The cursors built for inputs `i..`: one per non-empty input, holding its
      first element; an empty input raises StopIteration on its first `next`
      and gets no cursor. */
  function InitFrom<T>(inputs: seq<seq<T>>, i: nat): (h: Heap<T>)
    requires i <= |inputs|
    ensures |h| <= |inputs| - i
    ensures forall p :: 0 <= p < |h| ==> i <= h[p].src < |inputs|
    ensures DistinctSrcs(h)
    decreases |inputs| - i
  {
    if i == |inputs| then []
    else
      var tail := InitFrom(inputs, i + 1);
      if |inputs[i]| == 0 then tail
      else [Cursor(inputs[i][0], inputs[i][1..], i)] + tail
  }

  /** Each input's elements are held by its own cursor, and no other input's. */
  lemma {:induction false} InitFromPending<T>(inputs: seq<seq<T>>, i: nat, j: nat)
    requires i <= |inputs|
    ensures PendingFrom(InitFrom(inputs, i), j) == if i <= j < |inputs| then inputs[j] else []
    decreases |inputs| - i
  {
    if i < |inputs| {
      InitFromPending(inputs, i + 1, j);
      InitFromPendingStep(inputs, i, j);
      PendingOfInput(inputs, i, j, PendingFrom(InitFrom(inputs, i), j), PendingFrom(InitFrom(inputs, i + 1), j));
    }
  }

  /** Input `i`'s own elements followed by those of the inputs after it give
      the share of input `j` among inputs `i..`. */
  lemma PendingOfInput<T>(inputs: seq<seq<T>>, i: nat, j: nat, whole: seq<T>, rest: seq<T>)
    requires i < |inputs|
    requires rest == if i + 1 <= j < |inputs| then inputs[j] else []
    requires whole == (if i == j then inputs[i] else []) + rest
    ensures whole == if i <= j < |inputs| then inputs[j] else []
  {
    if i == j {
      assert whole == inputs[i] + [];
    } else {
      assert whole == [] + rest;
    }
  }

  /** The cursor built for input `i` holds exactly that input. */
  lemma InitFromPendingStep<T>(inputs: seq<seq<T>>, i: nat, j: nat)
    requires i < |inputs|
    ensures PendingFrom(InitFrom(inputs, i), j) == (if i == j then inputs[i] else []) + PendingFrom(InitFrom(inputs, i + 1), j)
  {
    var tail := InitFrom(inputs, i + 1);
    if |inputs[i]| > 0 {
      var c := Cursor(inputs[i][0], inputs[i][1..], i);
      assert InitFrom(inputs, i) == [c] + tail;
      PendingFromCons(c, tail, j);
      assert Pending(c) == inputs[i];
    }
  }

  lemma PendingFromCons<T>(c: Cursor<T>, tail: Heap<T>, j: nat)
    ensures PendingFrom([c] + tail, j) == (if c.src == j then Pending(c) else []) + PendingFrom(tail, j)
  {
    assert ([c] + tail)[1..] == tail;
  }

  lemma {:induction false} InitFromFlatten<T>(inputs: seq<seq<T>>, i: nat)
    requires i <= |inputs|
    ensures Flatten(InitFrom(inputs, i)) == Concat(inputs[i..])
    decreases |inputs| - i
  {
    if i < |inputs| {
      var tail := InitFrom(inputs, i + 1);
      InitFromFlatten(inputs, i + 1);
      assert inputs[i..][1..] == inputs[i + 1..];
      if |inputs[i]| > 0 {
        var c := Cursor(inputs[i][0], inputs[i][1..], i);
        assert ([c] + tail)[1..] == tail;
        assert Pending(c) == inputs[i];
      }
    }
  }

  lemma InitFromZero<T>(inputs: seq<seq<T>>)
    ensures OnePerInput(InitFrom(inputs, 0), |inputs|)
    ensures forall j: nat :: PendingFrom(InitFrom(inputs, 0), j) == if j < |inputs| then inputs[j] else []
    ensures Flatten(InitFrom(inputs, 0)) == Concat(inputs)
  {
    forall j: nat
      ensures PendingFrom(InitFrom(inputs, 0), j) == if j < |inputs| then inputs[j] else []
    {
      InitFromPending(inputs, 0, j);
    }
    InitFromFlatten(inputs, 0);
    assert inputs[0..] == inputs;
  }

  /** The heap `imerge` starts its loop with. */
  function Init<T>(inputs: seq<seq<T>>): (h: Heap<T>)
    ensures OnePerInput(h, |inputs|)
    ensures |h| <= |inputs|
    ensures forall j: nat :: PendingFrom(h, j) == if j < |inputs| then inputs[j] else []
    ensures Flatten(h) == Concat(inputs)
  {
    InitFromZero(inputs);
    InitFrom(inputs, 0)
  }

  // ---------------------------------------------------------------------------
  // One round of the loop (iter.py:27-35)
  // ---------------------------------------------------------------------------

  /** The entry `heapq` sees for a cursor: a PrioObj whose relation compares
      the buffered heads with `lt` (iter.py:19, 23). */
  function Wrap<T>(lt: (T, T) -> bool, c: Cursor<T>): Prio.PrioObj<Cursor<T>> {
    Prio.PrioObj(c, (a: Cursor<T>, b: Cursor<T>) => lt(a.head, b.head))
  }

  /** The heap's `<` on two cursors. */
  predicate Before<T>(lt: (T, T) -> bool, c: Cursor<T>, d: Cursor<T>) {
    Prio.Less(Wrap(lt, c), Wrap(lt, d))
  }

  /** Comparing two heap entries is exactly `lt` on their buffered heads. */
  lemma BeforeIsLtOnHeads<T>(lt: (T, T) -> bool, c: Cursor<T>, d: Cursor<T>)
    ensures Before(lt, c, d) <==> lt(c.head, d.head)
  {
  }

  /** No buffered head is strictly before the head of entry `m`. */
  predicate IsMinimal<T>(lt: (T, T) -> bool, h: Heap<T>, m: nat) {
    m < |h| && forall i :: 0 <= i < |h| ==> !lt(h[i].head, h[m].head)
  }

  /** Scans `h[j..]`, moving to a later entry whenever it is before the one
      kept so far. */
  function MinFrom<T(!new)>(lt: (T, T) -> bool, h: Heap<T>, best: nat, j: nat): (k: nat)
    requires best < j <= |h|
    ensures k < |h|
    ensures StrictWeakOrder(lt) && (forall i :: 0 <= i < j ==> !lt(h[i].head, h[best].head))
            ==> IsMinimal(lt, h, k)
    decreases |h| - j
  {
    if j == |h| then best
    else if Before(lt, h[j], h[best]) then
      NewBestIsMinimalSoFar(lt, h, best, j);
      MinFrom(lt, h, j, j + 1)
    else MinFrom(lt, h, best, j + 1)
  }

  /** An entry strictly before the best one so far is itself not preceded by
      any entry scanned so far. */
  lemma NewBestIsMinimalSoFar<T(!new)>(lt: (T, T) -> bool, h: Heap<T>, best: nat, j: nat)
    requires best < j < |h| && lt(h[j].head, h[best].head)
    ensures StrictWeakOrder(lt) && (forall i :: 0 <= i < j ==> !lt(h[i].head, h[best].head))
            ==> forall i :: 0 <= i < j + 1 ==> !lt(h[i].head, h[j].head)
  {
  }

  /** The model's choice of the entry to pop: under a strict weak order, an
      entry no buffered head is strictly before, which is what `heappop`
      removes too, up to the order of equal heads. */
  function SelectMin<T(!new)>(lt: (T, T) -> bool, h: Heap<T>): (k: nat)
    requires |h| > 0
    ensures k < |h|
    ensures StrictWeakOrder(lt) ==> IsMinimal(lt, h, k)
  {
    MinFrom(lt, h, 0, 1)
  }

  /** The cursor pushed back after its head was output: the input's next
      element becomes the head; an exhausted input is dropped. */
  function Advance<T>(c: Cursor<T>): (h: Heap<T>)
    ensures Flatten(h) == c.rest
    ensures forall p :: 0 <= p < |h| ==> h[p].src == c.src
    ensures |h| <= 1
  {
    if |c.rest| == 0 then [] else [Cursor(c.rest[0], c.rest[1..], c.src)]
  }

  function Remove<T>(h: Heap<T>, k: nat): Heap<T>
    requires k < |h|
  {
    h[..k] + h[k + 1..]
  }

  /** Popping entry `k`: its head is output tagged with its input, and the
      advanced cursor is pushed back. Nothing is lost or invented, whichever
      entry is popped. */
  function PopAt<T>(h: Heap<T>, k: nat): (r: (Tagged<T>, Heap<T>))
    requires k < |h|
    ensures |r.1| <= |h|
    ensures |Flatten(r.1)| + 1 == |Flatten(h)|
    ensures multiset(Flatten(h)) == multiset{r.0.val} + multiset(Flatten(r.1))
  {
    var c := h[k];
    var h' := Remove(h, k) + Advance(c);
    FlattenSplit(h, k);
    FlattenAppend(Remove(h, k), Advance(c));
    FlattenAppend(h[..k], h[k + 1..]);
    (Tagged(c.head, c.src), h')
  }

  /** One round of the model's own run (iter.py:28-33): pop the entry
      `SelectMin` chooses, yield its head, and push the advanced cursor back.
      `Scan` makes the same choice in every round; the whole-run lemmas are
      stated through `PopAt`, for any choice of entry. */
  function Pop<T(!new)>(lt: (T, T) -> bool, h: Heap<T>): (r: (Tagged<T>, Heap<T>))
    requires |h| > 0
    ensures |r.1| <= |h|
    ensures |Flatten(r.1)| + 1 == |Flatten(h)|
    ensures StrictWeakOrder(lt) ==> forall i :: 0 <= i < |h| ==> !lt(h[i].head, r.0.val)
  {
    PopAt(h, SelectMin(lt, h))
  }

  // ---------------------------------------------------------------------------
  // Whole runs of the loop (iter.py:27-35)
  // ---------------------------------------------------------------------------

  /** `ms` names, round by round, the position of the entry popped: each is
      in range, and the rounds end exactly when the heap is empty. */
  predicate Schedule<T>(h: Heap<T>, ms: seq<nat>)
    decreases |ms|
  {
    if |ms| == 0 then |h| == 0
    else |h| > 0 && ms[0] < |h| && Schedule(PopAt(h, ms[0]).1, ms[1..])
  }

  /** A schedule that pops a minimal entry in every round. Under a strict weak
      order every run of `heappop` is one, whatever order it gives equal
      heads. */
  predicate MinimalSchedule<T>(lt: (T, T) -> bool, h: Heap<T>, ms: seq<nat>)
    decreases |ms|
  {
    Schedule(h, ms)
    && (|ms| > 0 ==> IsMinimal(lt, h, ms[0]) && MinimalSchedule(lt, PopAt(h, ms[0]).1, ms[1..]))
  }

  /** The output of the loop run from heap `h`, popping the entries `ms` names. */
  function DrainBy<T>(h: Heap<T>, ms: seq<nat>): (out: seq<Tagged<T>>)
    requires Schedule(h, ms)
    ensures |out| == |ms|
    decreases |ms|
  {
    if |ms| == 0 then []
    else
      var r := PopAt(h, ms[0]);
      [r.0] + DrainBy(r.1, ms[1..])
  }

  /** The heaps seen at each test of `while nxtheap` when the loop pops the
      entries `ms` names: the first is `h`, each next one is what a round
      leaves, and the last is empty. */
  function TraceBy<T>(h: Heap<T>, ms: seq<nat>): (hs: seq<Heap<T>>)
    requires Schedule(h, ms)
    ensures |hs| == |ms| + 1
    ensures hs[0] == h
    ensures forall p :: 0 <= p < |ms| ==> ms[p] < |hs[p]| && hs[p + 1] == PopAt(hs[p], ms[p]).1
    ensures |hs[|ms|]| == 0
    decreases |ms|
  {
    if |ms| == 0 then [h]
    else
      var h' := PopAt(h, ms[0]).1;
      var tail := TraceBy(h', ms[1..]);
      TraceCons(h, ms, tail);
      [h] + tail
  }

  /** Putting `h` in front of the trace of the rounds after the first gives
      the trace of all rounds. */
  lemma TraceCons<T>(h: Heap<T>, ms: seq<nat>, tail: seq<Heap<T>>)
    requires |ms| > 0 && ms[0] < |h| && |tail| == |ms|
    requires tail[0] == PopAt(h, ms[0]).1
    requires forall p :: 0 <= p < |ms| - 1 ==> ms[1..][p] < |tail[p]| && tail[p + 1] == PopAt(tail[p], ms[1..][p]).1
    ensures forall p :: 0 <= p < |ms| ==> ms[p] < |([h] + tail)[p]| && ([h] + tail)[p + 1] == PopAt(([h] + tail)[p], ms[p]).1
  {
    var hs := [h] + tail;
    assert hs[0] == h && hs[1] == tail[0];
    forall p | 1 <= p < |ms|
      ensures ms[p] < |hs[p]| && hs[p + 1] == PopAt(hs[p], ms[p]).1
    {
      TraceConsStep(h, ms, tail, p);
    }
  }

  /** Round `p` of the whole trace is round `p - 1` of the tail's. */
  lemma TraceConsStep<T>(h: Heap<T>, ms: seq<nat>, tail: seq<Heap<T>>, p: nat)
    requires 1 <= p < |ms| && |tail| == |ms|
    requires ms[1..][p - 1] < |tail[p - 1]| && tail[p] == PopAt(tail[p - 1], ms[1..][p - 1]).1
    ensures ms[p] < |([h] + tail)[p]| && ([h] + tail)[p + 1] == PopAt(([h] + tail)[p], ms[p]).1
  {
    var hs := [h] + tail;
    assert hs[p] == tail[p - 1] && hs[p + 1] == tail[p] && ms[p] == ms[1..][p - 1];
  }

  /** The choices of the model's scan, round by round. */
  function Scan<T(!new)>(lt: (T, T) -> bool, h: Heap<T>): (ms: seq<nat>)
    ensures Schedule(h, ms)
    decreases |Flatten(h)|
  {
    if |h| == 0 then []
    else
      var m := SelectMin(lt, h);
      var rest := Scan(lt, PopAt(h, m).1);
      assert ([m] + rest)[1..] == rest;
      [m] + rest
  }

  /** `imerge(*inputs)` when its pops follow `ms`, each output element tagged
      by its input. */
  function IMergeTaggedBy<T>(inputs: seq<seq<T>>, ms: seq<nat>): (out: seq<Tagged<T>>)
    requires Schedule(Init(inputs), ms)
    ensures |out| == |Concat(inputs)|
  {
    ScheduleLength(Init(inputs), ms);
    DrainBy(Init(inputs), ms)
  }

  /** `imerge(*inputs)` when its pops follow `ms`. */
  function IMergeBy<T>(inputs: seq<seq<T>>, ms: seq<nat>): (out: seq<T>)
    requires Schedule(Init(inputs), ms)
    ensures |out| == |Concat(inputs)|
  {
    var out := Values(DrainBy(Init(inputs), ms));
    DrainPermutes(Init(inputs), ms);
    PermutationLength(out, Concat(inputs));
    out
  }

  /** The values `imerge` outputs are the tagged output with the tags dropped,
      so facts about either carry over to the other. */
  lemma IMergeByIsTaggedValues<T>(inputs: seq<seq<T>>, ms: seq<nat>)
    requires Schedule(Init(inputs), ms)
    ensures IMergeBy(inputs, ms) == Values(IMergeTaggedBy(inputs, ms))
  {
  }

  lemma PermutationLength<T>(a: seq<T>, b: seq<T>)
    requires multiset(a) == multiset(b)
    ensures |a| == |b|
  {
    assert |a| == |multiset(a)| && |b| == |multiset(b)|;
  }

  /** `imerge(lt, *inputs)` with the model's own choice of pops. */
  function IMerge<T(!new)>(lt: (T, T) -> bool, inputs: seq<seq<T>>): seq<T> {
    IMergeBy(inputs, Scan(lt, Init(inputs)))
  }

  // ---------------------------------------------------------------------------
  // Sequence bookkeeping
  // ---------------------------------------------------------------------------

  lemma {:induction false} FlattenAppend<T>(a: Heap<T>, b: Heap<T>)
    ensures Flatten(a + b) == Flatten(a) + Flatten(b)
    decreases |a|
  {
    if |a| == 0 {
      assert a + b == b;
    } else {
      assert (a + b)[1..] == a[1..] + b;
      FlattenAppend(a[1..], b);
    }
  }

  lemma {:induction false} FlattenLength<T>(h: Heap<T>)
    ensures |Flatten(h)| >= |h|
    decreases |h|
  {
    if |h| > 0 {
      FlattenLength(h[1..]);
    }
  }

  lemma {:induction false} ConcatOfEmpties<T>(ss: seq<seq<T>>)
    requires forall i :: 0 <= i < |ss| ==> ss[i] == []
    ensures Concat(ss) == []
    decreases |ss|
  {
    if |ss| > 0 {
      ConcatOfEmpties(ss[1..]);
    }
  }

  lemma FlattenSplit<T>(h: Heap<T>, k: nat)
    requires k < |h|
    ensures Flatten(h) == Flatten(h[..k]) + (Pending(h[k]) + Flatten(h[k + 1..]))
  {
    var tl := h[k..];
    assert h == h[..k] + tl;
    FlattenAppend(h[..k], tl);
    assert tl[0] == h[k] && tl[1..] == h[k + 1..];
  }

  lemma {:induction false} PendingFromAppend<T>(a: Heap<T>, b: Heap<T>, i: nat)
    ensures PendingFrom(a + b, i) == PendingFrom(a, i) + PendingFrom(b, i)
    decreases |a|
  {
    if |a| == 0 {
      assert a + b == b;
    } else {
      assert (a + b)[1..] == a[1..] + b;
      PendingFromAppend(a[1..], b, i);
    }
  }

  lemma {:induction false} PendingFromAbsent<T>(h: Heap<T>, i: nat)
    requires forall p :: 0 <= p < |h| ==> h[p].src != i
    ensures PendingFrom(h, i) == []
    decreases |h|
  {
    if |h| > 0 {
      PendingFromAbsent(h[1..], i);
    }
  }

  lemma {:induction false} FlattenMembers<T(!new)>(lt: (T, T) -> bool, h: Heap<T>, x: T)
    requires NegativelyTransitive(lt)
    requires AllSorted(lt, h)
    requires forall p :: 0 <= p < |h| ==> !lt(h[p].head, x)
    ensures NotBelow(lt, Flatten(h), x)
    decreases |h|
  {
    if |h| > 0 {
      SortedTail(lt, Pending(h[0]));
      assert Pending(h[0])[1..] == h[0].rest;
      FlattenMembers(lt, h[1..], x);
    }
  }

  // ---------------------------------------------------------------------------
  // What one round preserves
  // ---------------------------------------------------------------------------

  /** A round leaves at most one cursor per input, and only cursors of inputs
      that were already in the heap (iter.py:28-33). */
  lemma PopKeepsOnePerInput<T>(h: Heap<T>, m: nat, k: nat)
    requires m < |h| && OnePerInput(h, k)
    ensures OnePerInput(PopAt(h, m).1, k)
  {
    var c := h[m];
    var rem := Remove(h, m);
    var adv := Advance(c);
    var h' := rem + adv;
    RemoveKeepsOnePerInput(h, m, k);
    assert PopAt(h, m).1 == h';
    forall p, q | 0 <= p < q < |h'|
      ensures h'[p].src != h'[q].src
    {
      if q < |rem| {
        assert h'[p] == rem[p] && h'[q] == rem[q];
      } else {
        assert h'[q] == adv[0] && h'[p] == rem[p];
      }
    }
  }

  /** The entries left after removing entry `m`, in their order. */
  lemma RemoveIndex<T>(h: Heap<T>, m: nat)
    requires m < |h|
    ensures |Remove(h, m)| == |h| - 1
    ensures forall p :: 0 <= p < m ==> Remove(h, m)[p] == h[p]
    ensures forall p :: m <= p < |h| - 1 ==> Remove(h, m)[p] == h[p + 1]
  {
  }

  /** Removing an entry keeps one cursor per input, and no other cursor is
      for the removed entry's input. */
  lemma RemoveKeepsOnePerInput<T>(h: Heap<T>, m: nat, k: nat)
    requires m < |h| && OnePerInput(h, k)
    ensures OnePerInput(Remove(h, m), k)
    ensures forall p :: 0 <= p < |Remove(h, m)| ==> Remove(h, m)[p].src != h[m].src
  {
    var rem := Remove(h, m);
    RemoveIndex(h, m);
    forall p | 0 <= p < |rem|
      ensures rem[p].src != h[m].src && rem[p].src < k
    {
      var p0 := if p < m then p else p + 1;
      assert rem[p] == h[p0];
    }
    forall p, q | 0 <= p < q < |rem|
      ensures rem[p].src != rem[q].src
    {
      var p0 := if p < m then p else p + 1;
      var q0 := if q < m then q else q + 1;
      assert rem[p] == h[p0] && rem[q] == h[q0];
    }
  }

  /** A round outputs the popped head tagged with its input and removes
      exactly that element from what the heap holds for the input: the next
      element of an input is only pulled once its predecessor is output. */
  lemma PopTakesFromOneInput<T>(h: Heap<T>, m: nat, i: nat)
    requires m < |h| && DistinctSrcs(h)
    ensures PendingFrom(h, i)
            == (if PopAt(h, m).0.src == i then [PopAt(h, m).0.val] else []) + PendingFrom(PopAt(h, m).1, i)
  {
    var c := h[m];
    var pa, pb, pc := PendingFrom(h[..m], i), PendingFrom(h[m + 1..], i), PendingFrom(Advance(c), i);
    assert PopAt(h, m).0 == Tagged(c.head, c.src);
    PendingFromSplit(h, m, i);
    PendingFromPopAt(h, m, i);
    PendingFromAdvance(c, i);
    if c.src == i {
      OthersAbsent(h, m);
      assert pa + pb + pc == c.rest;
    } else {
      assert pa + pb + pc == pa + pb;
    }
  }

  /** What the heap holds of input `i` after popping entry `m`: the other
      entries' share, then the advanced cursor's. */
  lemma PendingFromPopAt<T>(h: Heap<T>, m: nat, i: nat)
    requires m < |h|
    ensures PendingFrom(PopAt(h, m).1, i)
            == PendingFrom(h[..m], i) + PendingFrom(h[m + 1..], i) + PendingFrom(Advance(h[m]), i)
  {
    var a, b := h[..m], h[m + 1..];
    PendingFromAppend(a + b, Advance(h[m]), i);
    PendingFromAppend(a, b, i);
  }

  /** With one cursor per input, the cursors around entry `m` hold nothing
      of its input. */
  lemma OthersAbsent<T>(h: Heap<T>, m: nat)
    requires m < |h| && DistinctSrcs(h)
    ensures PendingFrom(h[..m], h[m].src) == [] && PendingFrom(h[m + 1..], h[m].src) == []
  {
    var a, b := h[..m], h[m + 1..];
    assert forall p :: 0 <= p < |a| ==> a[p] == h[p];
    assert forall p :: 0 <= p < |b| ==> b[p] == h[m + 1 + p];
    PendingFromAbsent(a, h[m].src);
    PendingFromAbsent(b, h[m].src);
  }

  lemma PendingFromSplit<T>(h: Heap<T>, k: nat, i: nat)
    requires k < |h|
    ensures PendingFrom(h, i)
            == PendingFrom(h[..k], i) + ((if h[k].src == i then Pending(h[k]) else []) + PendingFrom(h[k + 1..], i))
  {
    var tl := h[k..];
    assert h == h[..k] + tl;
    PendingFromAppend(h[..k], tl, i);
    assert tl[0] == h[k] && tl[1..] == h[k + 1..];
  }

  lemma PendingFromAdvance<T>(c: Cursor<T>, i: nat)
    ensures PendingFrom(Advance(c), i) == (if c.src == i then c.rest else [])
  {
    if |c.rest| > 0 {
      var d := Cursor(c.rest[0], c.rest[1..], c.src);
      assert Advance(c) == [d];
      assert Pending(d) == c.rest;
      assert [d][1..] == [];
    }
  }

  /** If every cursor's pending elements are sorted, they still are after
      popping any entry. */
  lemma PopKeepsSorted<T>(lt: (T, T) -> bool, h: Heap<T>, m: nat)
    requires m < |h| && AllSorted(lt, h)
    ensures AllSorted(lt, PopAt(h, m).1)
  {
    var c := h[m];
    var rem := Remove(h, m);
    var adv := Advance(c);
    assert PopAt(h, m).1 == rem + adv;
    RemoveKeepsSorted(lt, h, m);
    SortedTail(lt, Pending(c));
    assert Pending(c)[1..] == c.rest;
    if |adv| > 0 {
      assert Pending(adv[0]) == c.rest;
    }
  }

  lemma RemoveKeepsSorted<T>(lt: (T, T) -> bool, h: Heap<T>, m: nat)
    requires m < |h| && AllSorted(lt, h)
    ensures AllSorted(lt, Remove(h, m))
  {
    RemoveIndex(h, m);
  }

  /** After popping a minimal entry from sorted cursors, nothing left in the
      heap is strictly before the element just output. */
  lemma PopMinimalIsBelowRest<T(!new)>(lt: (T, T) -> bool, h: Heap<T>, m: nat)
    requires NegativelyTransitive(lt)
    requires IsMinimal(lt, h, m) && AllSorted(lt, h)
    ensures NotBelow(lt, Flatten(PopAt(h, m).1), PopAt(h, m).0.val)
  {
    var c := h[m];
    var rem := Remove(h, m);
    var adv := Advance(c);
    assert PopAt(h, m) == (Tagged(c.head, c.src), rem + adv);
    RemoveKeepsSorted(lt, h, m);
    RemoveIndex(h, m);
    FlattenMembers(lt, rem, c.head);
    SortedTail(lt, Pending(c));
    assert Pending(c)[1..] == c.rest;
    FlattenAppend(rem, adv);
  }

  // ---------------------------------------------------------------------------
  // Properties of whole runs
  // ---------------------------------------------------------------------------

  /** A run has one round per element the heap holds. */
  lemma {:induction false} ScheduleLength<T>(h: Heap<T>, ms: seq<nat>)
    requires Schedule(h, ms)
    ensures |ms| == |Flatten(h)|
    decreases |ms|
  {
    if |ms| > 0 {
      ScheduleLength(PopAt(h, ms[0]).1, ms[1..]);
    } else {
      assert Flatten(h) == [];
    }
  }

  /** Under a strict weak order the model's scan pops a minimal entry in
      every round. */
  lemma {:induction false} ScanIsMinimal<T(!new)>(lt: (T, T) -> bool, h: Heap<T>)
    requires StrictWeakOrder(lt)
    ensures MinimalSchedule(lt, h, Scan(lt, h))
    decreases |Flatten(h)|
  {
    if |h| > 0 {
      var m := SelectMin(lt, h);
      var rest := Scan(lt, PopAt(h, m).1);
      ScanIsMinimal(lt, PopAt(h, m).1);
      assert Scan(lt, h) == [m] + rest;
      assert ([m] + rest)[1..] == rest;
    }
  }

  lemma {:induction false} DrainPermutes<T>(h: Heap<T>, ms: seq<nat>)
    requires Schedule(h, ms)
    ensures multiset(Values(DrainBy(h, ms))) == multiset(Flatten(h))
    decreases |ms|
  {
    if |ms| > 0 {
      var r := PopAt(h, ms[0]);
      var rest := DrainBy(r.1, ms[1..]);
      assert DrainBy(h, ms) == [r.0] + rest;
      assert ([r.0] + rest)[1..] == rest;
      DrainPermutes(r.1, ms[1..]);
    } else {
      assert Flatten(h) == [];
    }
  }

  lemma {:induction false} DrainProjects<T>(h: Heap<T>, ms: seq<nat>, i: nat)
    requires Schedule(h, ms) && DistinctSrcs(h)
    ensures Project(DrainBy(h, ms), i) == PendingFrom(h, i)
    decreases |ms|
  {
    if |ms| > 0 {
      var r := PopAt(h, ms[0]);
      var rest := DrainBy(r.1, ms[1..]);
      assert DrainBy(h, ms) == [r.0] + rest;
      assert ([r.0] + rest)[1..] == rest;
      PopKeepsOnePerInput(h, ms[0], MaxSrc(h) + 1);
      PopTakesFromOneInput(h, ms[0], i);
      DrainProjects(r.1, ms[1..], i);
    }
  }

  /** An upper bound on the inputs named by a heap's cursors. */
  function MaxSrc<T>(h: Heap<T>): (m: nat)
    ensures forall p :: 0 <= p < |h| ==> h[p].src <= m
  {
    if |h| == 0 then 0
    else
      var m := MaxSrc(h[1..]);
      assert forall p :: 1 <= p < |h| ==> h[p] == h[1..][p - 1];
      if h[0].src > m then h[0].src else m
  }

  lemma {:induction false} DrainSorted<T(!new)>(lt: (T, T) -> bool, h: Heap<T>, ms: seq<nat>)
    requires StrictWeakOrder(lt)
    requires AllSorted(lt, h) && MinimalSchedule(lt, h, ms)
    ensures Sorted(lt, Values(DrainBy(h, ms)))
    decreases |ms|
  {
    if |ms| > 0 {
      var r := PopAt(h, ms[0]);
      var rest := DrainBy(r.1, ms[1..]);
      assert DrainBy(h, ms) == [r.0] + rest;
      assert ([r.0] + rest)[1..] == rest;
      PopKeepsSorted(lt, h, ms[0]);
      PopMinimalIsBelowRest(lt, h, ms[0]);
      DrainSorted(lt, r.1, ms[1..]);
      DrainPermutes(r.1, ms[1..]);
      assert forall y :: y in Values(rest) ==> y in multiset(Flatten(r.1));
      SortedCons(lt, r.0.val, Values(rest));
    }
  }

  lemma {:induction false} TraceOnePerInput<T>(h: Heap<T>, ms: seq<nat>, k: nat)
    requires Schedule(h, ms) && OnePerInput(h, k)
    ensures forall p :: 0 <= p < |TraceBy(h, ms)| ==> OnePerInput(TraceBy(h, ms)[p], k)
    decreases |ms|
  {
    var hs := TraceBy(h, ms);
    if |ms| > 0 {
      var h' := PopAt(h, ms[0]).1;
      var tail := TraceBy(h', ms[1..]);
      assert hs == [h] + tail;
      PopKeepsOnePerInput(h, ms[0], k);
      TraceOnePerInput(h', ms[1..], k);
      forall p | 0 <= p < |hs|
        ensures OnePerInput(hs[p], k)
      {
        if p > 0 {
          ConsKeepsOnePerInput(h, tail, k, p);
        }
      }
    }
  }

  lemma ConsKeepsOnePerInput<T>(h: Heap<T>, tail: seq<Heap<T>>, k: nat, p: nat)
    requires 1 <= p <= |tail| && OnePerInput(tail[p - 1], k)
    ensures OnePerInput(([h] + tail)[p], k)
  {
    assert ([h] + tail)[p] == tail[p - 1];
  }

  /** A heap with at most one cursor per input among `k` inputs has at most
      `k` cursors. */
  lemma {:induction false} OnePerInputBound<T>(h: Heap<T>, k: nat)
    requires OnePerInput(h, k)
    ensures |h| <= k
    decreases k
  {
    assert |h| == 0 || h[0].src < k;
    if k > 0 {
      var h' := h;
      if p :| 0 <= p < |h| && h[p].src == k - 1 {
        h' := Remove(h, p);
        RemoveKeepsOnePerInput(h, p, k);
      }
      assert SrcsBelow(h', k - 1);
      OnePerInputBound(h', k - 1);
    }
  }

  // ---------------------------------------------------------------------------
  // The properties imerge promises, for every run whose pops are minimal
  // ---------------------------------------------------------------------------

  /** Merging inputs that are each sorted under a strict weak order gives a
      sorted output, whichever minimal entry each round pops. */
  lemma IMergeSorted<T(!new)>(lt: (T, T) -> bool, inputs: seq<seq<T>>, ms: seq<nat>)
    requires StrictWeakOrder(lt)
    requires EachSorted(lt, inputs)
    requires MinimalSchedule(lt, Init(inputs), ms)
    ensures Sorted(lt, IMergeBy(inputs, ms))
  {
    InitSorted(lt, inputs);
    DrainSorted(lt, Init(inputs), ms);
  }

  /** Each initial cursor holds its input, so sorted inputs give sorted
      cursors. */
  lemma InitSorted<T>(lt: (T, T) -> bool, inputs: seq<seq<T>>)
    requires EachSorted(lt, inputs)
    ensures AllSorted(lt, Init(inputs))
  {
    var h := Init(inputs);
    forall p | 0 <= p < |h|
      ensures Sorted(lt, Pending(h[p]))
    {
      InitCursorHoldsInput(inputs, p);
    }
  }

  lemma InitCursorHoldsInput<T>(inputs: seq<seq<T>>, p: nat)
    requires p < |Init(inputs)|
    ensures Init(inputs)[p].src < |inputs| && Pending(Init(inputs)[p]) == inputs[Init(inputs)[p].src]
  {
    var h := Init(inputs);
    var i := h[p].src;
    PendingFromSplit(h, p, i);
    OthersAbsent(h, p);
    assert PendingFrom(h, i) == Pending(h[p]);
  }

  /** Every input element is output exactly once and nothing else is, for
      any order of pops at all. */
  lemma IMergePermutes<T>(inputs: seq<seq<T>>, ms: seq<nat>)
    requires Schedule(Init(inputs), ms)
    ensures multiset(IMergeBy(inputs, ms)) == multiset(Concat(inputs))
  {
    DrainPermutes(Init(inputs), ms);
  }

  /** Read back by input, the output is each input unchanged: elements from
      the same input keep their relative order, and no element is credited to
      an input that does not exist. This holds for any order of pops. */
  lemma IMergeKeepsInputOrder<T>(inputs: seq<seq<T>>, ms: seq<nat>, i: nat)
    requires Schedule(Init(inputs), ms)
    ensures Project(IMergeTaggedBy(inputs, ms), i) == (if i < |inputs| then inputs[i] else [])
  {
    DrainProjects(Init(inputs), ms, i);
  }

  /** With no inputs, or only empty ones, the heap starts empty, the loop
      runs no round and nothing is output. */
  lemma IMergeOfEmptyInputs<T>(inputs: seq<seq<T>>, ms: seq<nat>)
    requires forall i :: 0 <= i < |inputs| ==> inputs[i] == []
    requires Schedule(Init(inputs), ms)
    ensures Init(inputs) == [] && ms == []
    ensures IMergeBy(inputs, ms) == []
  {
    ConcatOfEmpties(inputs);
    FlattenLength(Init(inputs));
    ScheduleLength(Init(inputs), ms);
  }

  /** At every test of the loop condition the heap holds at most one cursor
      per input, hence at most as many cursors as there are inputs, for any
      order of pops. */
  lemma IMergeHeapBound<T>(inputs: seq<seq<T>>, ms: seq<nat>)
    requires Schedule(Init(inputs), ms)
    ensures forall p :: 0 <= p < |TraceBy(Init(inputs), ms)| ==>
              OnePerInput(TraceBy(Init(inputs), ms)[p], |inputs|)
              && |TraceBy(Init(inputs), ms)[p]| <= |inputs|
  {
    var hs := TraceBy(Init(inputs), ms);
    TraceOnePerInput(Init(inputs), ms, |inputs|);
    forall p | 0 <= p < |hs|
      ensures |hs[p]| <= |inputs|
    {
      OnePerInputBound(hs[p], |inputs|);
    }
  }

  /** For an order whose incomparable values are equal, every run with
      minimal pops outputs the one sorted arrangement of all input elements,
      so the order in which equal heads are popped cannot change the output. */
  lemma IMergeIsSortedConcat<T(!new)>(lt: (T, T) -> bool, inputs: seq<seq<T>>, ms: seq<nat>, sorted: seq<T>)
    requires StrictWeakOrder(lt) && Connected(lt)
    requires EachSorted(lt, inputs)
    requires MinimalSchedule(lt, Init(inputs), ms)
    requires Sorted(lt, sorted) && multiset(sorted) == multiset(Concat(inputs))
    ensures IMergeBy(inputs, ms) == sorted
  {
    IMergeSorted(lt, inputs, ms);
    IMergePermutes(inputs, ms);
    SortedUnique(lt, IMergeBy(inputs, ms), sorted);
  }

  /** The model's own merge is one of these runs: under a strict weak order
      its scan pops a minimal entry in every round. */
  lemma IMergeIsMinimalRun<T(!new)>(lt: (T, T) -> bool, inputs: seq<seq<T>>)
    requires StrictWeakOrder(lt)
    ensures MinimalSchedule(lt, Init(inputs), Scan(lt, Init(inputs)))
  {
    ScanIsMinimal(lt, Init(inputs));
  }
}

=== FILE: orders.dfy ===
/** Properties of the caller-supplied strict "less than" relation `lt` that
    orders the merge, and what "sorted" means under such a relation.

    A sequence is sorted (non-decreasing) under `lt` when no later element is
    strictly before an earlier one; it is strictly ascending when every earlier
    element is strictly before every later one. */
module Orders {

  ghost predicate Irreflexive<T(!new)>(lt: (T, T) -> bool) {
    forall a :: !lt(a, a)
  }

  ghost predicate Transitive<T(!new)>(lt: (T, T) -> bool) {
    forall a, b, c :: lt(a, b) && lt(b, c) ==> lt(a, c)
  }

  /** "Not before" is transitive: incomparable values behave as equals. */
  ghost predicate NegativelyTransitive<T(!new)>(lt: (T, T) -> bool) {
    forall a, b, c :: !lt(a, b) && !lt(b, c) ==> !lt(a, c)
  }

  /** Enough for a finite collection of values to have a minimal element. */
  ghost predicate StrictOrder<T(!new)>(lt: (T, T) -> bool) {
    Irreflexive(lt) && Transitive(lt)
  }

  /** The ordering a heap-based merge needs: `<` on numbers, or on keys. */
  ghost predicate StrictWeakOrder<T(!new)>(lt: (T, T) -> bool) {
    StrictOrder(lt) && NegativelyTransitive(lt)
  }

  /** Distinct values are always comparable, so "neither is before the other"
      means "equal". This is what links `!=` (used by uniq) with `lt`. */
  ghost predicate Connected<T(!new)>(lt: (T, T) -> bool) {
    forall a, b :: a != b ==> lt(a, b) || lt(b, a)
  }

  predicate Sorted<T>(lt: (T, T) -> bool, s: seq<T>) {
    forall i, j :: 0 <= i < j < |s| ==> !lt(s[j], s[i])
  }

  predicate StrictlyAscending<T>(lt: (T, T) -> bool, s: seq<T>) {
    forall i, j :: 0 <= i < j < |s| ==> lt(s[i], s[j])
  }

  /** Every input of a merge is sorted. */
  predicate EachSorted<T>(lt: (T, T) -> bool, inputs: seq<seq<T>>) {
    forall i :: 0 <= i < |inputs| ==> Sorted(lt, inputs[i])
  }

  /** `a` and `b` hold the same values, ignoring order and repetition. */
  ghost predicate SameValues<T(!new)>(a: seq<T>, b: seq<T>) {
    forall x :: x in a <==> x in b
  }

  /** No element of `s` is strictly before `x`. */
  predicate NotBelow<T(==)>(lt: (T, T) -> bool, s: seq<T>, x: T) {
    forall y :: y in s ==> !lt(y, x)
  }

  /** The usual "<" on integers, the order the demand test points are merged by. */
  predicate IntLt(a: int, b: int) {
    a < b
  }

  lemma IntLtIsStrictTotal()
    ensures StrictWeakOrder(IntLt) && Connected(IntLt)
  {
  }

  /** Prepending `x` keeps a sequence sorted exactly when nothing in it is
      strictly before `x`. */
  lemma SortedCons<T>(lt: (T, T) -> bool, x: T, s: seq<T>)
    ensures Sorted(lt, [x] + s) <==> Sorted(lt, s) && NotBelow(lt, s, x)
  {
    var xs := [x] + s;
    if Sorted(lt, xs) {
      forall y | y in s
        ensures !lt(y, x)
      {
        var j :| 0 <= j < |s| && s[j] == y;
        assert xs[j + 1] == y && xs[0] == x;
      }
      forall i, j | 0 <= i < j < |s|
        ensures !lt(s[j], s[i])
      {
        assert xs[i + 1] == s[i] && xs[j + 1] == s[j];
      }
    }
    if Sorted(lt, s) && NotBelow(lt, s, x) {
      forall i, j | 0 <= i < j < |xs|
        ensures !lt(xs[j], xs[i])
      {
        assert xs[j] == s[j - 1];
        if i > 0 {
          assert xs[i] == s[i - 1];
        }
      }
    }
  }

  /** A suffix of a sorted sequence is sorted, and nothing in it is before the
      element the suffix starts after. */
  lemma SortedTail<T>(lt: (T, T) -> bool, s: seq<T>)
    requires |s| > 0 && Sorted(lt, s)
    ensures Sorted(lt, s[1..]) && NotBelow(lt, s[1..], s[0])
  {
    assert s == [s[0]] + s[1..];
    SortedCons(lt, s[0], s[1..]);
  }

  /** Two strictly ascending sequences with the same elements are equal: a
      strictly ascending sequence is determined by its set of values. */
  lemma {:induction false} AscendingUnique<T(!new)>(lt: (T, T) -> bool, a: seq<T>, b: seq<T>)
    requires StrictOrder(lt)
    requires StrictlyAscending(lt, a) && StrictlyAscending(lt, b)
    requires SameValues(a, b)
    ensures a == b
    decreases |a|
  {
    if |a| > 0 {
      assert a[0] in a;
    }
    if |b| > 0 {
      assert b[0] in b;
    }
    if |a| > 0 {
      assert b[0] == a[0] || lt(a[0], b[0]) by {
        var i :| 0 <= i < |a| && a[i] == b[0];
      }
      assert a[0] == b[0];
      forall x
        ensures x in a[1..] <==> x in b[1..]
      {
        if x in a[1..] {
          var i :| 1 <= i < |a| && a[i] == x;
          assert lt(a[0], x);
          assert x in b;
          assert x != b[0];
          var j :| 0 <= j < |b| && b[j] == x;
          assert j != 0;
          assert b[j] == b[1..][j - 1];
        }
        if x in b[1..] {
          var j :| 1 <= j < |b| && b[j] == x;
          assert lt(b[0], x);
          assert x in a;
          assert x != a[0];
          var i :| 0 <= i < |a| && a[i] == x;
          assert i != 0;
          assert a[i] == a[1..][i - 1];
        }
      }
      AscendingUnique(lt, a[1..], b[1..]);
      assert a == [a[0]] + a[1..];
      assert b == [b[0]] + b[1..];
    }
  }

  /** Under an order whose incomparable values are equal, a sequence is
      determined by its multiset of values once it is sorted. */
  lemma {:induction false} SortedUnique<T(!new)>(lt: (T, T) -> bool, a: seq<T>, b: seq<T>)
    requires StrictWeakOrder(lt) && Connected(lt)
    requires Sorted(lt, a) && Sorted(lt, b)
    requires multiset(a) == multiset(b)
    ensures a == b
    decreases |a|
  {
    SortedSameHead(lt, a, b);
    if |a| > 0 {
      SortedTail(lt, a);
      SortedTail(lt, b);
      SortedUnique(lt, a[1..], b[1..]);
      assert a == [a[0]] + a[1..] && b == [b[0]] + b[1..];
    }
  }

  /** Two sorted rearrangements of each other have the same length, the same head and rearranged tails. */
  lemma SortedSameHead<T(!new)>(lt: (T, T) -> bool, a: seq<T>, b: seq<T>)
    requires StrictWeakOrder(lt) && Connected(lt)
    requires Sorted(lt, a) && Sorted(lt, b)
    requires multiset(a) == multiset(b)
    ensures |a| == |b|
    ensures |a| > 0 ==> a[0] == b[0] && multiset(a[1..]) == multiset(b[1..])
  {
    assert |a| == |multiset(a)| == |multiset(b)| == |b|;
    if |a| > 0 {
      NotBelowHeadOfSame(lt, a, b);
      NotBelowHeadOfSame(lt, b, a);
      assert a[0] == b[0];
      TailMultiset(a);
      TailMultiset(b);
    }
  }

  /** No element of a sorted sequence lies below its head, so neither does the head of a rearrangement. */
  lemma NotBelowHeadOfSame<T(!new)>(lt: (T, T) -> bool, a: seq<T>, b: seq<T>)
    requires Irreflexive(lt) && Sorted(lt, b)
    requires |a| > 0 && |b| > 0 && multiset(a) == multiset(b)
    ensures !lt(a[0], b[0])
  {
    assert a[0] in multiset(b);
    var j :| 0 <= j < |b| && b[j] == a[0];
    if j > 0 {
      assert !lt(b[j], b[0]);
    }
  }

  lemma TailMultiset<T>(s: seq<T>)
    requires |s| > 0
    ensures multiset(s[1..]) == multiset(s) - multiset{s[0]}
  {
    assert s == [s[0]] + s[1..];
  }
}

=== FILE: prio.dfy ===
/** The heap entry of schedcat/util/iter.py: a stored value together with the
    comparison that orders it, so that a plain min-heap ordered by `<` pops
    entries in the order of a caller-chosen relation. */
module Prio {

  datatype PrioObj<!V> = PrioObj(val: V, lt: (V, V) -> bool)

  /** `a < b` on heap entries: the left entry's relation applied to the two
      stored values. */
  predicate Less<V>(a: PrioObj<V>, b: PrioObj<V>) {
    a.lt(a.val, b.val)
  }

  /** Only the left entry's relation takes part in `a < b`: the right entry
      contributes its stored value and nothing else. */
  lemma LessUsesLeftRelation<V>(a: PrioObj<V>, b: PrioObj<V>, b': PrioObj<V>)
    requires b.val == b'.val
    ensures Less(a, b) <==> Less(a, b')
  {
  }
}

=== FILE: testing_set.dfy ===
/** The deduplicated merge that the EDF demand analysis builds its testing set
    with: `uniq(imerge(lt, *points))` over the per-task test-point sequences,
    and the literal vectors tests/edf.py checks it against. The per-task
    sequences themselves are produced by the ffdbf module, which is not part
    of this model. The vectors below merge the finite prefixes the tests read
    as if they were the complete inputs. */
module TestingSet {
  import opened Orders
  import opened Merge
  import opened Dedup

  /** Deduplicating the merge of sorted inputs gives a strictly ascending
      sequence holding exactly the values that occur in some input, whichever
      minimal entry each round of the merge pops. */
  lemma DedupMergeIsStrictlyAscending<T(!new)>(lt: (T, T) -> bool, inputs: seq<seq<T>>, ms: seq<nat>)
    requires StrictWeakOrder(lt) && Connected(lt)
    requires EachSorted(lt, inputs)
    requires MinimalSchedule(lt, Init(inputs), ms)
    requires |Concat(inputs)| > 0
    ensures Uniq(IMergeBy(inputs, ms)).Ok?
    ensures StrictlyAscending(lt, Uniq(IMergeBy(inputs, ms)).value)
    ensures SameValues(Uniq(IMergeBy(inputs, ms)).value, Concat(inputs))
  {
    var merged := IMergeBy(inputs, ms);
    IMergeSorted(lt, inputs, ms);
    IMergePermutes(inputs, ms);
    assert |merged| == |multiset(merged)| == |multiset(Concat(inputs))| == |Concat(inputs)|;
    UniqOfSortedIsStrictlyAscending(lt, merged);
    forall x
      ensures x in merged <==> x in Concat(inputs)
    {
      assert x in merged <==> x in multiset(merged);
    }
  }

  /** Hence the deduplicated merge is the one strictly ascending sequence of
      the values occurring in some input. */
  lemma DedupMergeIsAscendingValues<T(!new)>(lt: (T, T) -> bool, inputs: seq<seq<T>>, ms: seq<nat>, expected: seq<T>)
    requires StrictWeakOrder(lt) && Connected(lt)
    requires EachSorted(lt, inputs)
    requires MinimalSchedule(lt, Init(inputs), ms)
    requires |Concat(inputs)| > 0
    requires StrictlyAscending(lt, expected)
    requires SameValues(expected, Concat(inputs))
    ensures Uniq(IMergeBy(inputs, ms)) == Ok(expected)
  {
    DedupMergeIsStrictlyAscending(lt, inputs, ms);
    AscendingUnique(lt, Uniq(IMergeBy(inputs, ms)).value, expected);
  }

  /** The same for integer inputs merged by `<`. */
  lemma DedupMergeOfInts(inputs: seq<seq<int>>, ms: seq<nat>, expected: seq<int>)
    requires EachSorted(IntLt, inputs)
    requires MinimalSchedule(IntLt, Init(inputs), ms)
    requires |Concat(inputs)| > 0
    requires StrictlyAscending(IntLt, expected)
    requires SameValues(expected, Concat(inputs))
    ensures Uniq(IMergeBy(inputs, ms)) == Ok(expected)
  {
    IntLtIsStrictTotal();
    DedupMergeIsAscendingValues(IntLt, inputs, ms, expected);
  }

  /** The deduplicated merge of two sorted integer sequences is the strictly
      ascending sequence of the values occurring in either. */
  lemma DedupMergeOfTwo(a: seq<int>, b: seq<int>, ms: seq<nat>, expected: seq<int>)
    requires Sorted(IntLt, a) && Sorted(IntLt, b) && |a| > 0
    requires MinimalSchedule(IntLt, Init([a, b]), ms)
    requires StrictlyAscending(IntLt, expected)
    requires forall x :: x in expected <==> x in a || x in b
    ensures Uniq(IMergeBy([a, b], ms)) == Ok(expected)
  {
    TwoInputs(a, b, expected);
    DedupMergeOfInts([a, b], ms, expected);
  }

  /** The facts about two sorted inputs that the merge lemmas ask for. */
  lemma TwoInputs(a: seq<int>, b: seq<int>, expected: seq<int>)
    requires Sorted(IntLt, a) && Sorted(IntLt, b) && |a| > 0
    requires forall x :: x in expected <==> x in a || x in b
    ensures EachSorted(IntLt, [a, b])
    ensures |Concat([a, b])| > 0
    ensures SameValues(expected, Concat([a, b]))
  {
    var inputs := [a, b];
    ConcatOfTwo(a, b);
    assert forall i :: 0 <= i < |inputs| ==> inputs[i] == a || inputs[i] == b;
    assert |Concat(inputs)| == |a| + |b|;
    forall x
      ensures x in expected <==> x in Concat(inputs)
    {
      assert x in a + b <==> x in a || x in b;
    }
  }

  /** tests/edf.py:145-157: the testing set of the tasks (5000, 10000) and
      (5000, 10000, deadline 7000) at speedup 1 starts 2000, 5000, 7000,
      10000, 12000, 15000, 17000, 20000. Here the first four test points of
      each task (tests/edf.py:114-129) are merged as complete inputs, for
      every run with minimal pops. The result is the first eight points of
      the full testing set only if each task's later points exceed 20000,
      which the test points themselves do not show. */
  lemma TestingSetOfTwoTasks(a: seq<int>, b: seq<int>, ms: seq<nat>)
    requires a == [5000, 10000, 15000, 20000] && b == [2000, 7000, 12000, 17000]
    requires MinimalSchedule(IntLt, Init([a, b]), ms)
    ensures Uniq(IMergeBy([a, b], ms)) == Ok([2000, 5000, 7000, 10000, 12000, 15000, 17000, 20000])
  {
    var e := [2000, 5000, 7000, 10000, 12000, 15000, 17000, 20000];
    TwoTaskPoints(a, b, e);
    DedupMergeOfTwo(a, b, ms, e);
  }

  /** The two tasks' test points are sorted, and the expected testing set is
      strictly ascending and holds exactly the points of either task. */
  lemma TwoTaskPoints(a: seq<int>, b: seq<int>, e: seq<int>)
    requires a == [5000, 10000, 15000, 20000] && b == [2000, 7000, 12000, 17000]
    requires e == [2000, 5000, 7000, 10000, 12000, 15000, 17000, 20000]
    ensures Sorted(IntLt, a) && Sorted(IntLt, b) && |a| > 0
    ensures StrictlyAscending(IntLt, e)
    ensures forall x :: x in e <==> x in a || x in b
  {
  }

  /** The deduplicated merge of a single sorted integer sequence is the
      strictly ascending sequence of its values. */
  lemma DedupMergeOfOne(a: seq<int>, ms: seq<nat>, expected: seq<int>)
    requires Sorted(IntLt, a) && |a| > 0
    requires MinimalSchedule(IntLt, Init([a]), ms)
    requires StrictlyAscending(IntLt, expected)
    requires forall x :: x in expected <==> x in a
    ensures Uniq(IMergeBy([a], ms)) == Ok(expected)
  {
    OneInput(a, expected);
    DedupMergeOfInts([a], ms, expected);
  }

  /** The facts about one sorted input that the merge lemmas ask for. */
  lemma OneInput(a: seq<int>, expected: seq<int>)
    requires Sorted(IntLt, a) && |a| > 0
    requires forall x :: x in expected <==> x in a
    ensures EachSorted(IntLt, [a])
    ensures |Concat([a])| > 0
    ensures SameValues(expected, Concat([a]))
  {
    var inputs := [a];
    ConcatOfOne(a);
    assert forall i :: 0 <= i < |inputs| ==> inputs[i] == a;
    forall x
      ensures x in expected <==> x in Concat(inputs)
    {
      assert Concat(inputs) == a;
    }
  }

  lemma ConcatOfTwo(a: seq<int>, b: seq<int>)
    ensures Concat([a, b]) == a + b
  {
    var inputs := [a, b];
    assert inputs[1..] == [b];
    ConcatOfOne(b);
  }

  lemma ConcatOfOne(a: seq<int>)
    ensures Concat([a]) == a
  {
    var inputs := [a];
    assert |inputs[1..]| == 0;
    assert a + [] == a;
  }

  /** tests/edf.py:132-136: at speedup 1/2 the test points of the task
      (5000, 10000) start 10000, 10000, 20000. Merged as a complete input,
      the repeated value appears once in the testing set of that task
      alone. */
  lemma TestingSetDropsRepeat(a: seq<int>, ms: seq<nat>)
    requires a == [10000, 10000, 20000]
    requires MinimalSchedule(IntLt, Init([a]), ms)
    ensures Uniq(IMergeBy([a], ms)) == Ok([10000, 20000])
  {
    var e := [10000, 20000];
    RepeatedPoints(a, e);
    DedupMergeOfOne(a, ms, e);
  }

  /** The task's test points are sorted, and the expected testing set is
      strictly ascending and holds exactly its distinct points. */
  lemma RepeatedPoints(a: seq<int>, e: seq<int>)
    requires a == [10000, 10000, 20000] && e == [10000, 20000]
    ensures Sorted(IntLt, a) && |a| > 0
    ensures StrictlyAscending(IntLt, e)
    ensures forall x :: x in e <==> x in a
  {
  }

  /** The model's own run of the merge is one of the runs the two vectors
      above are stated for, so both hold of it. */
  lemma TestingSetVectorsOfScan(a: seq<int>, b: seq<int>, c: seq<int>)
    requires a == [5000, 10000, 15000, 20000] && b == [2000, 7000, 12000, 17000]
    requires c == [10000, 10000, 20000]
    ensures Uniq(IMerge(IntLt, [a, b])) == Ok([2000, 5000, 7000, 10000, 12000, 15000, 17000, 20000])
    ensures Uniq(IMerge(IntLt, [c])) == Ok([10000, 20000])
  {
    IntLtIsStrictTotal();
    IMergeIsMinimalRun(IntLt, [a, b]);
    TestingSetOfTwoTasks(a, b, Scan(IntLt, Init([a, b])));
    IMergeIsMinimalRun(IntLt, [c]);
    TestingSetDropsRepeat(c, Scan(IntLt, Init([c])));
  }
}

=== FILE: uniq.dfy ===
/** `uniq` of schedcat/util/iter.py: drops every element equal (by `!=`, not by
    the merge order) to the element yielded just before it, so each run of
    consecutive equal values is reduced to its first element.

    The source reads the first element with a bare `next`, so an empty input
    is a usage error rather than an empty result; it is modelled as `Err`. */
module Dedup {
  import opened Orders

  datatype IterError = EmptyInput

  datatype Result<R> = Ok(value: R) | Err(error: IterError)

  predicate NoAdjacentDup<T(==)>(s: seq<T>) {
    forall i :: 0 <= i < |s| - 1 ==> s[i] != s[i + 1]
  }

  /** `a` is `b` with some elements left out, the kept ones in their order. */
  predicate IsSubsequence<T(==)>(a: seq<T>, b: seq<T>)
    decreases |b|
  {
    |a| == 0 || (|b| > 0 && ((a[0] == b[0] && IsSubsequence(a[1..], b[1..])) || IsSubsequence(a, b[1..])))
  }

  /** The loop of iter.py:41-44 over the remaining input `s`, with `last` the
      value yielded most recently. */
  function Collapse<T(==)>(last: T, s: seq<T>): seq<T>
    decreases |s|
  {
    if |s| == 0 then []
    else if s[0] != last then [s[0]] + Collapse(s[0], s[1..])
    else Collapse(last, s[1..])
  }

  /** What the loop yields is a subsequence of what it reads and never
      repeats the value yielded just before it (starting from `last`). Every
      value it reads is `last` or is yielded at some point. */
  lemma {:induction false} CollapseProperties<T>(last: T, s: seq<T>)
    ensures IsSubsequence(Collapse(last, s), s)
    ensures NoAdjacentDup([last] + Collapse(last, s))
    ensures forall x :: x in s ==> x == last || x in Collapse(last, s)
    decreases |s|
  {
    if |s| > 0 {
      var r := Collapse(last, s);
      assert s == [s[0]] + s[1..];
      if s[0] != last {
        var r' := Collapse(s[0], s[1..]);
        CollapseProperties(s[0], s[1..]);
        assert r == [s[0]] + r';
        assert r[1..] == r';
        assert ([last] + r)[1..] == r;
      } else {
        CollapseProperties(last, s[1..]);
      }
    }
  }

  /** What uniq yields for `s`, an empty input yielding nothing. */
  function Yielded<T(==)>(s: seq<T>): seq<T> {
    if |s| == 0 then [] else [s[0]] + Collapse(s[0], s[1..])
  }

  /** `uniq(s)` run to completion: the first element, then the rest collapsed. */
  function Uniq<T(==)>(s: seq<T>): (r: Result<seq<T>>)
    ensures r.Err? <==> |s| == 0
    ensures r.Ok? ==> |r.value| > 0 && r.value[0] == s[0]
    ensures r.Ok? ==> NoAdjacentDup(r.value) && IsSubsequence(r.value, s)
    ensures r.Ok? ==> (forall x :: x in s ==> x in r.value) && (forall x :: x in r.value ==> x in s)
  {
    if |s| == 0 then Err(EmptyInput)
    else
      var r := Yielded(s);
      CollapseProperties(s[0], s[1..]);
      assert s == [s[0]] + s[1..];
      assert r[1..] == Collapse(s[0], s[1..]);
      SubsequenceMembers(r[1..], s[1..]);
      Ok(r)
  }

  // ---------------------------------------------------------------------------
  // Subsequences
  // ---------------------------------------------------------------------------

  lemma {:induction false} SubsequenceMembers<T>(a: seq<T>, b: seq<T>)
    requires IsSubsequence(a, b)
    ensures forall x :: x in a ==> x in b
    decreases |b|
  {
    if |a| > 0 {
      assert b == [b[0]] + b[1..];
      if a[0] == b[0] && IsSubsequence(a[1..], b[1..]) {
        SubsequenceMembers(a[1..], b[1..]);
        assert a == [a[0]] + a[1..];
      } else {
        SubsequenceMembers(a, b[1..]);
      }
    }
  }

  /** A subsequence of a sorted sequence is sorted. */
  lemma {:induction false} SubsequenceSorted<T>(lt: (T, T) -> bool, a: seq<T>, b: seq<T>)
    requires Sorted(lt, b) && IsSubsequence(a, b)
    ensures Sorted(lt, a)
    decreases |b|
  {
    if |a| > 0 {
      SortedTail(lt, b);
      if a[0] == b[0] && IsSubsequence(a[1..], b[1..]) {
        SubsequenceSorted(lt, a[1..], b[1..]);
        SubsequenceMembers(a[1..], b[1..]);
        assert a == [a[0]] + a[1..];
        SortedCons(lt, a[0], a[1..]);
      } else {
        SubsequenceSorted(lt, a, b[1..]);
      }
    }
  }

  // ---------------------------------------------------------------------------
  // uniq on sorted input
  // ---------------------------------------------------------------------------

  /** On input sorted under an order whose incomparable values are equal,
      `uniq` yields a strictly ascending sequence. */
  lemma UniqOfSortedIsStrictlyAscending<T(!new)>(lt: (T, T) -> bool, s: seq<T>)
    requires StrictWeakOrder(lt) && Connected(lt)
    requires |s| > 0 && Sorted(lt, s)
    ensures Uniq(s).Ok? && StrictlyAscending(lt, Uniq(s).value)
  {
    var r := Uniq(s).value;
    SubsequenceSorted(lt, r, s);
    forall i, j | 0 <= i < j < |r|
      ensures lt(r[i], r[j])
    {
      assert r[i] != r[i + 1] && !lt(r[i + 1], r[i]);
      assert lt(r[i], r[i + 1]);
      if i + 1 < j {
        assert !lt(r[j], r[i + 1]);
      }
    }
  }

  // ---------------------------------------------------------------------------
  // Run-length view: uniq keeps one value per run, and the run lengths give
  // the input back
  // ---------------------------------------------------------------------------

  function Repeat<T>(x: T, n: nat): (r: seq<T>)
    ensures |r| == n
  {
    if n == 0 then [] else [x] + Repeat(x, n - 1)
  }

  /** Length of the run of equal values `s` starts with. */
  function LeadRun<T(==)>(s: seq<T>): (n: nat)
    ensures |s| > 0 ==> 1 <= n <= |s|
    ensures |s| == 0 ==> n == 0
    ensures n < |s| ==> s[n] != s[0]
    decreases |s|
  {
    if |s| <= 1 then |s|
    else if s[1] == s[0] then
      var m := LeadRun(s[1..]);
      assert forall i :: 1 <= i <= m ==> s[i] == s[1..][i - 1];
      1 + m
    else 1
  }

  /** The lengths of the maximal runs of equal values in `s`, in order. */
  function RunLengths<T(==)>(s: seq<T>): (lens: seq<nat>)
    ensures forall i :: 0 <= i < |lens| ==> lens[i] > 0
    decreases |s|
  {
    if |s| == 0 then [] else [LeadRun(s)] + RunLengths(s[LeadRun(s)..])
  }

  /** Each value of `r` repeated as often as `lens` says. */
  function Expand<T>(r: seq<T>, lens: seq<nat>): seq<T>
    requires |r| == |lens|
  {
    if |r| == 0 then [] else Repeat(r[0], lens[0]) + Expand(r[1..], lens[1..])
  }

  lemma {:induction false} CollapseSkipsRun<T>(x: T, n: nat, t: seq<T>)
    ensures Collapse(x, Repeat(x, n) + t) == Collapse(x, t)
    decreases n
  {
    if n > 0 {
      var s := Repeat(x, n) + t;
      assert s[0] == x;
      assert s[1..] == Repeat(x, n - 1) + t;
      assert Collapse(x, s) == Collapse(x, s[1..]);
      CollapseSkipsRun(x, n - 1, t);
    } else {
      assert Repeat(x, n) + t == t;
    }
  }

  /** `s` is its leading run followed by the rest. */
  lemma {:induction false} LeadRunSplit<T>(s: seq<T>)
    requires |s| > 0
    ensures s == Repeat(s[0], LeadRun(s)) + s[LeadRun(s)..]
    decreases |s|
  {
    var n := LeadRun(s);
    if |s| > 1 && s[1] == s[0] {
      var t := s[1..];
      LeadRunSplit(t);
      var m := LeadRun(t);
      assert n == 1 + m;
      assert t[m..] == s[n..];
      calc {
        s;
        [s[0]] + t;
        [s[0]] + (Repeat(s[0], m) + s[n..]);
        ([s[0]] + Repeat(s[0], m)) + s[n..];
        Repeat(s[0], n) + s[n..];
      }
    } else {
      assert n == 1;
      assert s == [s[0]] + s[1..];
    }
  }

  /** What follows the first element of `s` is the rest of its leading run,
      then the input after that run. */
  lemma LeadRunTail<T>(s: seq<T>)
    requires |s| > 0
    ensures s[1..] == Repeat(s[0], LeadRun(s) - 1) + s[LeadRun(s)..]
  {
    var n := LeadRun(s);
    var r, t := Repeat(s[0], n - 1), s[n..];
    LeadRunSplit(s);
    assert Repeat(s[0], n) == [s[0]] + r;
    TailOfConsAppend(s[0], r, t);
  }

  lemma TailOfConsAppend<T>(x: T, r: seq<T>, t: seq<T>)
    ensures (([x] + r) + t)[1..] == r + t
  {
  }

  /** Collapsing after a value that differs from the next input starts afresh. */
  lemma CollapseAfterOther<T>(last: T, t: seq<T>)
    requires |t| == 0 || t[0] != last
    ensures Collapse(last, t) == Yielded(t)
  {
  }

  /** uniq yields the first value of `s`, then what it yields for the input
      after the leading run. */
  lemma YieldedSkipsLeadRun<T>(s: seq<T>)
    requires |s| > 0
    ensures Yielded(s) == [s[0]] + Yielded(s[LeadRun(s)..])
  {
    var n := LeadRun(s);
    var t := s[n..];
    LeadRunTail(s);
    assert |t| == 0 || t[0] == s[n];
    YieldedOfRunThenOther(s, n - 1, t);
  }

  /** A sequence made of a run of its head and then a part not starting with the head yields the head and then what that part yields. */
  lemma YieldedOfRunThenOther<T>(s: seq<T>, k: nat, t: seq<T>)
    requires |s| > 0 && s[1..] == Repeat(s[0], k) + t
    requires |t| == 0 || t[0] != s[0]
    ensures Yielded(s) == [s[0]] + Yielded(t)
  {
    var x := s[0];
    assert Yielded(s) == [x] + Collapse(x, s[1..]);
    CollapseSkipsRun(x, k, t);
    CollapseAfterOther(x, t);
  }

  lemma {:induction false} YieldedRunLengthRoundTrip<T>(s: seq<T>)
    ensures |Yielded(s)| == |RunLengths(s)|
    ensures Expand(Yielded(s), RunLengths(s)) == s
    decreases |s|
  {
    if |s| > 0 {
      var n := LeadRun(s);
      YieldedSkipsLeadRun(s);
      YieldedRunLengthRoundTrip(s[n..]);
      LeadRunSplit(s);
      var y, lens := Yielded(s), RunLengths(s);
      assert y[0] == s[0] && y[1..] == Yielded(s[n..]);
      assert lens[0] == n && lens[1..] == RunLengths(s[n..]);
      assert Expand(y, lens) == Repeat(s[0], n) + Expand(y[1..], lens[1..]);
    }
  }

  lemma {:induction false} LeadRunOfRepeat<T>(x: T, n: nat, t: seq<T>)
    requires n > 0
    requires |t| == 0 || t[0] != x
    ensures LeadRun(Repeat(x, n) + t) == n
    decreases n
  {
    var s := Repeat(x, n) + t;
    if n > 1 {
      assert s[1..] == Repeat(x, n - 1) + t;
      LeadRunOfRepeat(x, n - 1, t);
    }
  }

  lemma {:induction false} YieldedOfExpand<T>(r: seq<T>, lens: seq<nat>)
    requires |r| == |lens|
    requires NoAdjacentDup(r)
    requires forall i :: 0 <= i < |lens| ==> lens[i] > 0
    ensures Yielded(Expand(r, lens)) == r
    ensures RunLengths(Expand(r, lens)) == lens
    decreases |r|
  {
    if |r| > 0 {
      YieldedOfExpand(r[1..], lens[1..]);
      ExpandHeadRun(r, lens);
      DecodeOfHeadRun(Expand(r, lens), Expand(r[1..], lens[1..]), r, lens);
    }
  }

  /** If a sequence is one run of `r[0]` of length `lens[0]` followed by `t`, and `t` decodes to the rest of `r` and `lens`, the whole sequence decodes to `r` and `lens`. */
  lemma DecodeOfHeadRun<T>(s: seq<T>, t: seq<T>, r: seq<T>, lens: seq<nat>)
    requires |r| > 0 && |lens| > 0
    requires |s| > 0 && s[0] == r[0] && LeadRun(s) == lens[0] && s[lens[0]..] == t
    requires Yielded(t) == r[1..] && RunLengths(t) == lens[1..]
    ensures Yielded(s) == r && RunLengths(s) == lens
  {
    YieldedSkipsLeadRun(s);
    assert r == [r[0]] + r[1..];
    assert lens == [lens[0]] + lens[1..];
  }

  /** The expansion of a non-empty run-length encoding starts with a run of exactly the first count, followed by the expansion of the rest. */
  lemma ExpandHeadRun<T>(r: seq<T>, lens: seq<nat>)
    requires |r| == |lens| > 0
    requires NoAdjacentDup(r)
    requires forall i :: 0 <= i < |lens| ==> lens[i] > 0
    ensures |Expand(r, lens)| > 0 && Expand(r, lens)[0] == r[0]
    ensures LeadRun(Expand(r, lens)) == lens[0]
    ensures Expand(r, lens)[lens[0]..] == Expand(r[1..], lens[1..])
  {
    var s := Expand(r, lens);
    var t := Expand(r[1..], lens[1..]);
    assert s == Repeat(r[0], lens[0]) + t;
    ExpandStart(r, lens);
    ExpandStart(r[1..], lens[1..]);
    assert |r| > 1 ==> r[1..][0] == r[1] != r[0];
    LeadRunOfRepeat(r[0], lens[0], t);
    assert s[lens[0]..] == t;
  }

  /** The run lengths restore the input from what uniq yields: uniq loses
      nothing but the repetitions. */
  lemma UniqRunLengthRoundTrip<T>(s: seq<T>)
    requires |s| > 0
    ensures Uniq(s).Ok?
    ensures |Uniq(s).value| == |RunLengths(s)|
    ensures Expand(Uniq(s).value, RunLengths(s)) == s
  {
    YieldedRunLengthRoundTrip(s);
  }

  /** Conversely, every non-empty sequence without adjacent repeats, with any
      positive run lengths, is what uniq yields for its expansion, and the run
      lengths are recovered: uniq and the run lengths together lose no
      information. */
  lemma UniqOfExpand<T>(r: seq<T>, lens: seq<nat>)
    requires |r| == |lens| && |r| > 0
    requires NoAdjacentDup(r)
    requires forall i :: 0 <= i < |lens| ==> lens[i] > 0
    ensures Uniq(Expand(r, lens)) == Ok(r)
    ensures RunLengths(Expand(r, lens)) == lens
  {
    YieldedOfExpand(r, lens);
    ExpandStart(r, lens);
  }

  lemma ExpandStart<T>(r: seq<T>, lens: seq<nat>)
    requires |r| == |lens|
    requires forall i :: 0 <= i < |lens| ==> lens[i] > 0
    ensures |r| > 0 ==> |Expand(r, lens)| > 0 && Expand(r, lens)[0] == r[0]
  {
    if |r| > 0 {
      assert Repeat(r[0], lens[0]) == [r[0]] + Repeat(r[0], lens[0] - 1);
    }
  }
}
